=== FILE: README.md ===
# Session supervisor of the Gradient extension runner, in Dafny

`app.js` keeps one headless Chrome session logged in to the Gradient web
app with the Gradient extension installed, and watches the extension's
status indicator. This project models the decision logic of that script:

- **Proxy address normalisation** (`Proxy`): a configured `PROXY` without
  `://` gets the `http://` scheme; an unset or empty `PROXY` means no proxy.
- **Extension cache freshness** (`Artifact`): `downloadCRX` reuses
  `extension.crx` when it exists and is less than 24 hours old; otherwise it
  attempts one HTTPS fetch, which fails on a non-200 status, a request error
  or a failed write, and never settles when a 200 body is cut short.
- **Status classification** (`Status`): indicator text containing
  `Disconnected` is a failure and every other text is healthy. `Text` defines
  JavaScript's `includes` and proves it equal to "occurs at some position".
- **The supervisor loop** (`Supervisor`): its state is the `driver` variable
  (a session or nothing) and `retryCount`. One loop iteration is a pure
  `Step`. It launches and logs in only when there is no driver, and it polls
  the status. A healthy poll resets the counter to 0 and keeps the session.
  Any failure runs `cleanup`, drops the driver and adds one to the counter.
  When the counter reaches `MaxRetries = 3`, the process exits with code 1.
  `Run` folds `Step` over a sequence of iterations.
- **Process start** (`Startup`): a missing or empty `APP_USER`/`APP_PASS`
  exits with 1. A failed download exits with 1. A download left pending ends
  the process with 0. Otherwise the loop starts with no driver and a zero
  count.

Browser actions are not modelled as code. What they did in one iteration
arrives as a `Tick`: how launch and login ended (and at which awaited call,
if they failed), whether the "I got it" click worked, what the status read
returned, and whether `quit` would throw. What the loop asks of the outside
world leaves as `Effect`s: a session built, a `quit` attempted, a sleep.
Sessions are numbered in launch order so that effects can name them. A
session is *outstanding* from the moment it is built until a `quit` has been
attempted on it. `cleanup` swallows a `quit` that throws (app.js:116), so an
outstanding count of zero does not mean that no browser process is left
running.

Behaviour of the code worth knowing when reading the model:

- The status check is binary. There is no separate "unknown" outcome; any
  text without `Disconnected`, including empty text, counts as healthy. The
  match is case-sensitive.
- `retryCount` is reset only by a healthy poll. A successful launch and login
  does not reset it.
- A failure inside `getDriverOptions` (including the proxy anonymiser) or
  `build()` leaves `driver` empty, so `cleanup` has nothing to quit. A failure
  at any later awaited call finds `driver` already set, so that session is
  quit.
- A proxy anonymiser failure is handled like any other launch failure: the
  loop retries and counts it. It does not fall back to a direct connection.
- `downloadCRX` runs once, before the loop. Later relaunches reuse the file
  without checking its age again.
- A 200 response whose body is cut short never ends the piped write stream,
  so `downloadCRX` neither resolves nor rejects. The pending `await` keeps
  nothing alive, so Node ends the process with exit code 0 before the loop.
  The partial `extension.crx` it leaves has a fresh modification time, and
  the next start within 24 hours reuses it.
- Any non-200 response is a download failure. That includes a redirect,
  because `https.get` does not follow redirects.

## Model

| member | source | states |
|---|---|---|
| Text.ContainsIffOccurs | app.js:163 | The recursive substring test behind `includes` holds exactly when the needle occurs at some index of the text, in both directions. |
| Proxy.NormalizeProxyUrl | app.js:97 | The result always contains `://`. It equals the input exactly when the input already contains `://`. Otherwise it is `http://` followed by the input. |
| Proxy.NormalizeIdempotent | app.js:97 | Normalising an already normalised address returns it unchanged. |
| Proxy.ProxyUrl | app.js:96-97 | No proxy is used exactly when `PROXY` is unset or empty. Otherwise the proxy contains a scheme separator. It is `PROXY` verbatim exactly when `PROXY` already contains `://`, and `http://` + `PROXY` otherwise. |
| Proxy.NormalizeBareExample | app.js:97 | A bare `host:port` becomes `http://host:port`. |
| Proxy.NormalizeSchemeExample | app.js:97 | An address with its own scheme (`socks5://…`) is kept verbatim. |
| Artifact.Decide | app.js:21-25 | The cached file is reused exactly when it exists and the clock is less than 24 h past its modification time. A missing file is always fetched. |
| Artifact.DownloadCrx | app.js:19-49 | A fresh cache resolves without fetching. Otherwise the call resolves exactly when the response is 200 and the write finishes. It stays pending exactly when a 200 body is cut short. A non-200 status rejects with that status. A request or write error also rejects. |
| Artifact.StaleStaysStale | app.js:21-25 | A file judged stale at one time is still stale at every later time. |
| Artifact.CacheAfter | app.js:21-47 | After a call that resolves, the file exists. A completed fetch, and a 200 body cut short, leave it modified at the time the write stopped. A failed write removes the file. A reuse, a non-200 status or a request error leaves the cache as it was. |
| Artifact.DownloadNotRepeatedWithinADay | app.js:21-25 | After a download completes, a later `downloadCRX` that finds the file that download left less than 24 h after the download began resolves without fetching, whatever the network would do. Once a full day has passed since the write, a fetch is attempted again. |
| Artifact.TruncatedDownloadReused | app.js:21-38 | A partial file left by a 200 body cut short is reused without a fetch by any `downloadCRX` less than 24 h later. |
| Artifact.FreshCacheIgnoresNetwork | app.js:21-25 | With a fresh cache the fetch outcome cannot influence the result: no download is attempted. |
| Status.Classify | app.js:162-165 | The text is a failure exactly when `Disconnected` occurs at some position in it. Every other text is healthy. |
| Status.MarkerAnywhereFails | app.js:163 | Any text with `Disconnected` embedded anywhere is a failure. |
| Status.HealthyExamples | app.js:163 | `Connected`, the empty text and lower-case `disconnected` are all healthy. |
| Supervisor.Cleanup | app.js:112-118 | With no driver, `cleanup` does nothing. With a driver, it makes exactly one `quit` attempt on it, after which no session is left outstanding. |
| Supervisor.Recover | app.js:170-179 | The `catch` block. The process exits, with code 1, exactly when the incremented count reaches 3. Otherwise the driver is cleared, the count is exactly one higher and still below 3, and the loop waits the retry delay. The held session gets a quit attempt, nothing is launched, and no session is left outstanding. |
| Supervisor.Check | app.js:162-168 | The session survives exactly when the status could be read and does not contain `Disconnected`. A healthy read resets the count to 0, keeps the driver and waits one check interval. A throwing or disconnected read quits the session and counts one more failure, exiting at the ceiling. Nothing is launched, and the session stays outstanding exactly while it is kept. |
| Supervisor.Step | app.js:131-180 | One iteration exits, always with code 1, exactly when it fails and the incremented count reaches 3. A surviving state has `retryCount < 3`. A healthy iteration sets the count to 0, keeps a live driver untouched and sleeps the check interval. A failed one quits the held session, drops the driver, adds exactly 1 and sleeps the retry delay. Sessions are built only when there is no driver. A live driver is never replaced. |
| Supervisor.Run | app.js:131-180 | After exit nothing more happens. A run still going consumed every iteration and stays below the ceiling. A run that exits does so with code 1, right after a failed iteration. |
| Supervisor.RetryCountIsStreak | app.js:167-176 | From the start, `retryCount` equals the number of consecutive failed iterations since the last healthy one. The process exits exactly when that streak first reaches 3, and never earlier. |
| Supervisor.ConsecutiveFaultsExit | app.js:170-176 | From any running state, as many failing status reads in a row as are left below the ceiling end the process with code 1. Every one of those iterations is consumed before the exit. |
| Supervisor.StepAccounts | app.js:133-172 | After one iteration, the sessions built and not yet told to quit are exactly the one the driver holds. A session is built only while none is outstanding. |
| Supervisor.SessionsAccounted | app.js:105-181 | Over any run from the start, each session is told to quit before the next one is built and before the process exits. The only session not yet told to quit is the one held in `driver`. |
| Supervisor.SwallowedErrorsAreInert | app.js:156-158 | A failed first-run dialog click and a `quit` that throws give the same iteration as their successful counterparts. `retryCount` and `driver` are unaffected. |
| Supervisor.HealthyKeepsPolling | app.js:161-168 | A held session whose status keeps reading healthy is kept for any number of iterations. Each one sleeps one check interval and passes. Nothing is built or quit, and the count stays 0. |
| Supervisor.ConnectedScenario | app.js:131-168 | From the start, with a login that succeeds and a status that always reads healthy, session 0 is built exactly once. It is then polled every check interval with the count at 0, for any number of iterations. |
| Supervisor.PollErrorsFrom | app.js:131-178 | With no driver, a count of k and a status read that always throws, the process exits with code 1 after exactly 3 - k failed iterations. Each of those iterations builds a session and tells it to quit, with a retry delay between them. No further iteration is consumed, however many follow. |
| Supervisor.PollErrorScenario | app.js:170-178 | A status read that always throws produces three build/quit cycles separated by retry delays. Then the process exits with code 1, and no fourth iteration ever happens. |
| Startup.Boot | app.js:16-129 | The loop starts exactly when both credentials are set and non-empty and `downloadCRX` resolves. Missing credentials or a rejected `downloadCRX` exit with code 1. A `downloadCRX` left pending ends the process with code 0. A fresh cache with credentials always starts the loop. |
| Startup.Process | app.js:10-181 | Every exit has code 1, except the code-0 end of a process whose download was left pending, which happens exactly then. Without credentials, or with a rejected or pending download, no browser is ever built. The outstanding sessions are at most the one the driver holds, and each is built only when none is outstanding. Once the loop has started, `retryCount` is the current streak of failed iterations, and an exit comes only after three failures in a row. |

## Left out

- Chrome options, element locators, page URLs and Selenium timeouts (app.js:52-95, app.js:134-157): these are browser-automation calls. Only where each awaited call can throw is kept, as `SetupStage`.
- The HTTPS request and file streaming of `downloadCRX` (app.js:28-49): its outcome is the `FetchAttempt` parameter, and the time the write finished is a parameter of `CacheAfter`.
- Artifact.CacheAfter: treats the `fs.unlink` after a failed write as always succeeding. Its own error is ignored by the code, and a failed unlink would leave a truncated file behind.
- Artifact.DownloadCrx: a server that stalls with the connection open is not a `FetchAttempt`. `https.get` sets no timeout, so the open socket keeps the process waiting in `downloadCRX` indefinitely. Only a connection that has closed is represented, as `Truncated`, whose outcome is `Pending`.
- Startup.Boot: for the same reason, has no phase for a process that waits forever in the download. Its "loop, exit 1 or exit 0" covers every connection that ends.
- Startup.Process: likewise covers only runs whose download connection ends. The code-0 end rests on Node exiting once nothing keeps its event loop alive, which is outside the model.
- Clock readings are whole milliseconds (`int`); `Date.now()` and `mtimeMs` are JavaScript numbers that may carry fractions.
- `proxyChain.anonymizeProxy` and `proxy.manual` (app.js:98-99): external library calls. An anonymiser failure is the `DriverOptions` setup stage. The anonymised endpoint is never closed by the code, and the model does not track it.
- The `SIGINT`, `SIGTERM` and `uncaughtException` handlers (app.js:120-122): they run `cleanup` asynchronously, outside the loop. As written they quit the driver but neither clear it nor exit the process. Modelling that would need interleaving with the loop.
- Sleeps (app.js:168, app.js:178) are recorded as `Slept` effects with their durations and otherwise do nothing.
- `dotenv` loading and `process.exit` beyond its exit code. After an exit the run simply stops.
- Strings are `seq<char>`, so `includes` is compared character by character. No Unicode normalisation is modelled.

=== FILE: artifact.dfy ===
/**
 The extension package cache of `downloadCRX` (app.js:19-50). A cached
 `extension.crx` younger than one day is used as it is; otherwise one HTTPS
 fetch is attempted, whose outcome is supplied from outside.
 */
module Artifact {

  /** 24 hours in milliseconds, the cache lifetime. */
  const DayMs: int := 24 * 60 * 60 * 1000

  /** The cached file as the file system reports it: absent, or present with its modification time. */
  datatype CachedFile = Missing | Present(mtimeMs: int)

  datatype CacheDecision = Reuse | Fetch

  /** What the single HTTPS request ended with. */
  datatype FetchAttempt =
    | RequestError                               // `https.get` emitted `error`
    | Responded(statusCode: int, writeOk: bool)  // a response arrived; `writeOk` is whether streaming it to disk finished
    | Truncated                                  // a 200 body that ended early: the piped write stream neither finishes nor fails

  datatype DownloadError = HttpStatus(code: int) | NetworkError | WriteError

  /** `downloadCRX` resolves (`Ready`), rejects (`Failed`), or is left pending for good (`Pending`). */
  datatype DownloadResult = Ready(fetched: bool) | Failed(error: DownloadError) | Pending

  /** The age of the cached file, if any, is below one day. */
  predicate IsFresh(cache: CachedFile, nowMs: int)
  {
    cache.Present? && nowMs - cache.mtimeMs < DayMs
  }

  /** Whether the cached file is reused or a fetch is attempted. */
  function Decide(cache: CachedFile, nowMs: int): (d: CacheDecision)
    ensures d == Reuse <==> cache.Present? && nowMs < cache.mtimeMs + DayMs
    ensures cache.Missing? ==> d == Fetch
  {
    if IsFresh(cache, nowMs) then Reuse else Fetch
  }

  /** `downloadCRX()` given the cache, the clock, and the fetch it would attempt. */
  function DownloadCrx(cache: CachedFile, nowMs: int, attempt: FetchAttempt): (r: DownloadResult)
    ensures Decide(cache, nowMs) == Reuse ==> r == Ready(false)
    ensures r.Ready? && r.fetched <==> Decide(cache, nowMs) == Fetch && attempt == Responded(200, true)
    ensures r.Failed? <==> Decide(cache, nowMs) == Fetch && attempt != Responded(200, true) && !attempt.Truncated?
    ensures r.Pending? <==> Decide(cache, nowMs) == Fetch && attempt.Truncated?
    ensures r.Failed? && attempt.Responded? && attempt.statusCode != 200 ==> r.error == HttpStatus(attempt.statusCode)
  {
    if Decide(cache, nowMs) == Reuse then Ready(false)
    else match attempt
      case RequestError => Failed(NetworkError)
      case Truncated => Pending
      case Responded(code, writeOk) =>
        if code != 200 then Failed(HttpStatus(code))
        else if !writeOk then Failed(WriteError)
        else Ready(true)
  }

  /** Once a cached file is stale it stays stale as the clock advances. */
  lemma StaleStaysStale(cache: CachedFile, nowMs: int, laterMs: int)
    requires nowMs <= laterMs
    requires Decide(cache, nowMs) == Fetch
    ensures Decide(cache, laterMs) == Fetch
  {
  }

  /**
   The cached file once `downloadCRX` has settled, the write having finished
   at `writtenAtMs` (or, for a body cut short, when its last bytes were
   written): a completed fetch and a truncated one both leave a file modified
   then, a failed write unlinks the partial file, and every other outcome
   leaves the cache as it was (a non-200 status or request error never opens
   the file).
   */
  function CacheAfter(cache: CachedFile, nowMs: int, attempt: FetchAttempt, writtenAtMs: int): (c: CachedFile)
    ensures DownloadCrx(cache, nowMs, attempt).Ready? ==> c.Present?
    ensures DownloadCrx(cache, nowMs, attempt) == Ready(true) ==> c == Present(writtenAtMs)
    ensures DownloadCrx(cache, nowMs, attempt) == Pending ==> c == Present(writtenAtMs)
    ensures DownloadCrx(cache, nowMs, attempt) == Failed(WriteError) ==> c == Missing
    ensures DownloadCrx(cache, nowMs, attempt) in {Ready(false), Failed(NetworkError)} ==> c == cache
    ensures DownloadCrx(cache, nowMs, attempt).Failed? && DownloadCrx(cache, nowMs, attempt).error.HttpStatus? ==> c == cache
  {
    match DownloadCrx(cache, nowMs, attempt)
    case Ready(fetched) => if fetched then Present(writtenAtMs) else cache
    case Failed(error) => if error == WriteError then Missing else cache
    case Pending => Present(writtenAtMs)
  }

  /**
   A download that completed is not repeated for one day: a later
   `downloadCRX` that finds the file the download wrote (finished no earlier
   than the download began) less than 24 h after it began resolves without
   fetching, whatever the network would do, and one a full day after the
   write fetches again.
   */
  lemma DownloadNotRepeatedWithinADay(cache: CachedFile, nowMs: int, attempt: FetchAttempt,
                                      writtenAtMs: int, laterMs: int, again: FetchAttempt)
    requires DownloadCrx(cache, nowMs, attempt) == Ready(true)
    requires nowMs <= writtenAtMs <= laterMs
    ensures laterMs < nowMs + DayMs ==>
      DownloadCrx(CacheAfter(cache, nowMs, attempt, writtenAtMs), laterMs, again) == Ready(false)
    ensures laterMs >= writtenAtMs + DayMs ==>
      Decide(CacheAfter(cache, nowMs, attempt, writtenAtMs), laterMs) == Fetch
  {
  }

  /**
   A download cut short leaves a partial file with a fresh modification time,
   and a `downloadCRX` less than 24 h later reuses it as if it were complete.
   */
  lemma TruncatedDownloadReused(cache: CachedFile, nowMs: int, writtenAtMs: int, laterMs: int, again: FetchAttempt)
    requires DownloadCrx(cache, nowMs, Truncated) == Pending
    requires nowMs <= writtenAtMs <= laterMs < nowMs + DayMs
    ensures DownloadCrx(CacheAfter(cache, nowMs, Truncated, writtenAtMs), laterMs, again) == Ready(false)
  {
  }

  /** With a fresh cache the fetch outcome is never consulted. */
  lemma FreshCacheIgnoresNetwork(cache: CachedFile, nowMs: int, a: FetchAttempt, b: FetchAttempt)
    requires IsFresh(cache, nowMs)
    ensures DownloadCrx(cache, nowMs, a) == DownloadCrx(cache, nowMs, b)
  {
  }
}

=== FILE: proxy.dfy ===
/**
 The proxy address handed to the proxy anonymiser (app.js:96-97): a bare
 `host:port` gets the `http://` scheme, anything already carrying a scheme
 separator is used as given.
 */
module Proxy {
  import opened Wrappers
  import Text

  const SchemeSeparator: string := "://"
  const DefaultScheme: string := "http://"

  /** Normalises a configured proxy string to a URL. */
  function NormalizeProxyUrl(p: string): (r: string)
    ensures Text.Contains(r, SchemeSeparator)
    ensures r == p <==> Text.Contains(p, SchemeSeparator)
    ensures r != p ==> r == DefaultScheme + p
  {
    if Text.Contains(p, SchemeSeparator) then p
    else
      var u := DefaultScheme + p;
      assert u[4..7] == SchemeSeparator;
      Text.OccursImpliesContains(u, SchemeSeparator, 4);
      u
  }

  /** Normalising a normalised address changes nothing. */
  lemma NormalizeIdempotent(p: string)
    ensures NormalizeProxyUrl(NormalizeProxyUrl(p)) == NormalizeProxyUrl(p)
  {
  }

  /**
   The `if (PROXY)` guard: an unset or empty `PROXY` means no proxy at all;
   any other value is normalised.
   */
  function ProxyUrl(setting: Option<string>): (r: Option<string>)
    ensures r.None? <==> setting.None? || setting.value == ""
    ensures r.Some? ==> Text.Contains(r.value, SchemeSeparator)
    ensures r.Some? ==> r.value == setting.value || r.value == DefaultScheme + setting.value
    ensures r.Some? ==> (r.value == setting.value <==> Text.Contains(setting.value, SchemeSeparator))
  {
    match setting
    case None => None
    case Some(p) => if p == "" then None else Some(NormalizeProxyUrl(p))
  }

  /** A bare `host:port` gets the default scheme. */
  lemma NormalizeBareExample()
    ensures NormalizeProxyUrl("h:80") == "http://h:80"
  {
    var bare := "h:80";
    assert forall j | 0 <= j < |bare| :: bare[j] != '/';
    assert SchemeSeparator[1] !in bare;
    Text.MissingCharNeverContains(bare, SchemeSeparator, 1);
  }

  /** An address with its own scheme is kept verbatim. */
  lemma NormalizeSchemeExample()
    ensures NormalizeProxyUrl("socks5://h:1080") == "socks5://h:1080"
  {
    assert "socks5://h:1080"[6..9] == SchemeSeparator;
    Text.OccursImpliesContains("socks5://h:1080", SchemeSeparator, 6);
  }
}

=== FILE: startup.dfy ===
/**
 The process as a whole: the credential check at load time (app.js:10-16),
 the one-time extension download (app.js:124-129), then the supervisor loop.
 */
module Startup {
  import opened Wrappers
  import Artifact
  import Supervisor

  /** The environment variables the process reads; `PROXY` only reaches the browser options. */
  datatype Env = Env(user: Option<string>, password: Option<string>)

  /** JavaScript truthiness of an environment variable: set and non-empty. */
  predicate Truthy(v: Option<string>)
  {
    v.Some? && v.value != ""
  }

  /**
   Everything before `while (true)`: the loop starts fresh, or the process
   exits with 1 (`process.exit(1)`), or, when `downloadCRX` is left pending,
   with 0: the awaited promise holds nothing that keeps Node's event loop
   alive, so the process ends on its own once the connection has closed.
   */
  function Boot(env: Env, cache: Artifact.CachedFile, nowMs: int, attempt: Artifact.FetchAttempt): (p: Supervisor.Phase)
    ensures p == Supervisor.Initial || p == Supervisor.Exited(1) || p == Supervisor.Exited(0)
    ensures p == Supervisor.Initial <==>
      Truthy(env.user) && Truthy(env.password) && Artifact.DownloadCrx(cache, nowMs, attempt).Ready?
    ensures p == Supervisor.Exited(0) <==>
      Truthy(env.user) && Truthy(env.password) && Artifact.DownloadCrx(cache, nowMs, attempt).Pending?
    ensures Truthy(env.user) && Truthy(env.password) && Artifact.IsFresh(cache, nowMs) ==> p == Supervisor.Initial
  {
    if !Truthy(env.user) || !Truthy(env.password) then Supervisor.Exited(1)
    else match Artifact.DownloadCrx(cache, nowMs, attempt)
      case Ready(_) => Supervisor.Initial
      case Failed(_) => Supervisor.Exited(1)
      case Pending => Supervisor.Exited(0)
  }

  /** The whole process over a sequence of loop iterations. */
  function Process(env: Env, cache: Artifact.CachedFile, nowMs: int, attempt: Artifact.FetchAttempt,
                   ticks: seq<Supervisor.Tick>): (r: Supervisor.Trace)
    // every exit has code 1, except the silent end of a process whose download was left pending
    ensures r.next.Exited? ==> r.next.code == 1 || r.next.code == 0
    ensures r.next == Supervisor.Exited(0) <==>
      Truthy(env.user) && Truthy(env.password) && Artifact.DownloadCrx(cache, nowMs, attempt).Pending?
    // without credentials no browser is ever started
    ensures !Truthy(env.user) || !Truthy(env.password) ==> r == Supervisor.Trace(Supervisor.Exited(1), [], [])
    // the sessions built and not yet told to quit are at most the one the driver holds
    ensures Supervisor.Replay({}, r.effects) == Supervisor.Held(r.next)
    ensures Supervisor.LaunchesWhenIdle({}, r.effects)
    // a download that rejects ends the process before the loop, like missing credentials
    ensures Artifact.DownloadCrx(cache, nowMs, attempt).Failed? ==> r == Supervisor.Trace(Supervisor.Exited(1), [], [])
    ensures Artifact.DownloadCrx(cache, nowMs, attempt).Pending? ==> r.effects == [] && r.verdicts == []
    // once the loop started, it exits only after three failed iterations in a row
    ensures Truthy(env.user) && Truthy(env.password) && Artifact.DownloadCrx(cache, nowMs, attempt).Ready? ==>
      && (r.next.Exited? ==> Supervisor.TrailingFailures(r.verdicts) == Supervisor.MaxRetries)
      && (r.next.Running? ==> r.next.state.retryCount == Supervisor.TrailingFailures(r.verdicts))
  {
    var p := Boot(env, cache, nowMs, attempt);
    Supervisor.SessionsAccounted(ticks);
    Supervisor.RetryCountIsStreak(ticks);
    Supervisor.Run(p, ticks)
  }
}

=== FILE: status.dfy ===
/**
 The health check of the extension's status indicator (app.js:162-165):
 text containing "Disconnected" is a failure, every other text is healthy.
 */
module Status {
  import Text

  const DisconnectedMarker: string := "Disconnected"

  datatype Health = Healthy | Disconnected

  /** Classifies the indicator text by substring search. */
  function Classify(text: string): (h: Health)
    ensures h == Disconnected <==> exists i: nat :: Text.OccursAt(text, DisconnectedMarker, i)
  {
    Text.ContainsIffOccurs(text, DisconnectedMarker);
    if Text.Contains(text, DisconnectedMarker) then Disconnected else Healthy
  }

  /** Any text with the marker somewhere inside it is a failure. */
  lemma MarkerAnywhereFails(prefix: string, suffix: string)
    ensures Classify(prefix + DisconnectedMarker + suffix) == Disconnected
  {
    var s := prefix + DisconnectedMarker + suffix;
    assert s[|prefix|..|prefix| + |DisconnectedMarker|] == DisconnectedMarker;
    assert Text.OccursAt(s, DisconnectedMarker, |prefix|);
  }

  /** "Connected", the empty text and the lower-case spelling are all healthy. */
  lemma HealthyExamples()
    ensures Classify("Connected") == Healthy
    ensures Classify("") == Healthy
    ensures Classify("disconnected") == Healthy
  {
    Text.ShorterNeverContains("Connected", DisconnectedMarker);
    Text.ShorterNeverContains("", DisconnectedMarker);
    Text.MissingCharNeverContains("disconnected", DisconnectedMarker, 0);
  }
}

=== FILE: supervisor.dfy ===
/**
 The retry loop of the main async function (app.js:105-181).

 One iteration of `while (true)` is a `Step`. Its state is the `driver`
 variable (a session or nothing) and `retryCount`; `launched` only numbers
 sessions so that effects can name them. Every browser action is external:
 what it did in one iteration arrives as a `Tick`, and what the loop asked
 the outside world to do leaves as a list of `Effect`s. Sleeps are effects
 with no further consequence, and `process.exit(1)` ends the run.
 */
module Supervisor {
  import opened Wrappers
  import Status

  const MaxRetries: nat := 3
  const RetryDelayMs: nat := 60000
  const CheckIntervalMs: nat := 60000

  /** One browser session created by `Builder.build()`. */
  datatype Session = Session(id: nat)

  /** The awaited calls of the launch and login block (app.js:134-154), any of which can throw. */
  datatype SetupStage =
    | DriverOptions     // getDriverOptions, including the proxy anonymiser
    | Build             // Builder.build
    | Timeouts
    | OpenLoginPage
    | EnterEmail
    | EnterPassword
    | SubmitLogin
    | AwaitDashboard
    | OpenPopup
    | AwaitStatusPanel
  {
    /** `build()` has returned, so `driver` already holds the new session. */
    predicate AfterBuild()
    {
      !(this == DriverOptions || this == Build)
    }
  }

  /** How the launch and login block ended; a failed "I got it" click is swallowed and only recorded. */
  datatype Setup = SetupFailed(stage: SetupStage) | SetupDone(dialogDismissed: bool)

  /** The status read: the element lookup or `getText` threw, or it returned the text. */
  datatype Poll = PollFailed | StatusRead(text: string)

  /**
   The external outcomes of one loop iteration. `setup` is consulted only when
   there is no driver; `quitSucceeds` is what `driver.quit()` would do in `cleanup`.
   */
  datatype Tick = Tick(setup: Setup, poll: Poll, quitSucceeds: bool)

  datatype Effect = Launched(id: nat) | QuitAttempted(id: nat) | Slept(ms: nat)

  datatype State = State(driver: Option<Session>, retryCount: nat, launched: nat)

  datatype Phase = Running(state: State) | Exited(code: int)

  datatype Transition = Transition(next: Phase, effects: seq<Effect>)

  datatype Verdict = Passed | Failed

  /** Before the first iteration: no driver, `retryCount = 0`. */
  const Initial: Phase := Running(State(None, 0, 0))

  /**
   Which branch of the `try` an iteration ends in, stated on the outcomes alone:
   it fails when a needed launch fails, when the status cannot be read, or when
   the status reads as disconnected.
   */
  function Judge(hasDriver: bool, t: Tick): (v: Verdict)
  {
    if !hasDriver && t.setup.SetupFailed? then Failed
    else match t.poll
      case PollFailed => Failed
      case StatusRead(text) => if Status.Classify(text) == Status.Disconnected then Failed else Passed
  }

  /** `cleanup` (app.js:112-118): one `quit` attempt when there is a driver, nothing otherwise. */
  function Cleanup(driver: Option<Session>): (es: seq<Effect>)
    ensures driver.None? ==> es == []
    ensures driver.Some? ==> es == [QuitAttempted(driver.value.id)]
    // afterwards no session is left that has not been told to quit
    ensures Replay(if driver.Some? then {driver.value.id} else {}, es) == {}
  {
    match driver
    case None => []
    case Some(d) => [QuitAttempted(d.id)]
  }

  /** The `catch` block (app.js:170-179), after `prior` effects of this iteration. */
  function Recover(s: State, prior: seq<Effect>): (r: Transition)
    ensures |prior| <= |r.effects| && r.effects[..|prior|] == prior
    // the process exits, with code 1, exactly when the incremented count reaches the ceiling
    ensures r.next.Exited? <==> s.retryCount + 1 >= MaxRetries
    ensures r.next.Exited? ==> r.next.code == 1
    // otherwise the driver is gone, the count is one higher and still below the ceiling, and the loop waits
    ensures r.next.Running? ==>
      && r.next.state.driver.None? && r.next.state.retryCount == s.retryCount + 1 < MaxRetries
      && r.next.state.launched == s.launched
      && r.effects != [] && r.effects[|r.effects| - 1] == Slept(RetryDelayMs)
    // the held session is told to quit, nothing is launched, and no session is left outstanding
    ensures s.driver.Some? ==> QuitAttempted(s.driver.value.id) in r.effects[|prior|..]
    ensures forall e <- r.effects[|prior|..] :: !e.Launched?
    ensures Replay(Held(Running(s)), r.effects[|prior|..]) == {}
  {
    var count := s.retryCount + 1;
    var quits := Cleanup(s.driver);
    var tail := if count >= MaxRetries then quits else quits + [Slept(RetryDelayMs)];
    ReplayAppend(Held(Running(s)), quits, [Slept(RetryDelayMs)]);
    assert (prior + tail)[|prior|..] == tail;
    Transition(if count >= MaxRetries then Exited(1) else Running(State(None, count, s.launched)), prior + tail)
  }

  /** The status check and the healthy tail of the `try` (app.js:162-168). */
  function Check(s: State, poll: Poll, prior: seq<Effect>): (r: Transition)
    requires s.driver.Some?
    ensures |prior| <= |r.effects| && r.effects[..|prior|] == prior
    // the session survives exactly when the status could be read and does not say disconnected
    ensures r.next.Running? && r.next.state.driver == s.driver <==>
      poll.StatusRead? && Status.Classify(poll.text) == Status.Healthy
    // a healthy read resets the count and waits one check interval, touching nothing else
    ensures poll.StatusRead? && Status.Classify(poll.text) == Status.Healthy ==>
      r.next == Running(s.(retryCount := 0)) && r.effects[|prior|..] == [Slept(CheckIntervalMs)]
    // any other outcome quits the session and counts one more failure, or exits at the ceiling
    ensures poll.PollFailed? || Status.Classify(poll.text) == Status.Disconnected ==>
      && QuitAttempted(s.driver.value.id) in r.effects[|prior|..]
      && (r.next.Running? ==> r.next.state.driver.None? && r.next.state.retryCount == s.retryCount + 1)
      && (r.next.Exited? <==> s.retryCount + 1 >= MaxRetries)
    // nothing is launched, and the held session is outstanding exactly while it is kept
    ensures forall e <- r.effects[|prior|..] :: !e.Launched?
    ensures Replay(Held(Running(s)), r.effects[|prior|..]) == Held(r.next)
  {
    match poll
    case PollFailed => Recover(s, prior)
    case StatusRead(text) =>
      if Status.Classify(text) == Status.Disconnected then Recover(s, prior)
      else Transition(Running(s.(retryCount := 0)), prior + [Slept(CheckIntervalMs)])
  }

  /** One iteration of the supervisor loop (app.js:131-180). */
  function Step(s: State, t: Tick): (r: Transition)
    // the loop only ever leaves through `process.exit(1)`, and only with `retryCount` at the ceiling
    ensures r.next.Exited? <==> Judge(s.driver.Some?, t) == Failed && s.retryCount + 1 >= MaxRetries
    ensures r.next.Exited? ==> r.next.code == 1
    ensures r.next.Running? ==> r.next.state.retryCount < MaxRetries
    // a healthy iteration resets the counter and keeps a live driver for the next one
    ensures Judge(s.driver.Some?, t) == Passed ==>
      && r.next.Running? && r.next.state.retryCount == 0 && r.next.state.driver.Some?
      && r.effects != [] && r.effects[|r.effects| - 1] == Slept(CheckIntervalMs)
      && forall e <- r.effects :: !e.QuitAttempted?
    ensures Judge(s.driver.Some?, t) == Passed && s.driver.Some? ==>
      r == Transition(Running(s.(retryCount := 0)), [Slept(CheckIntervalMs)])
    // a failed iteration tears the session down, drops the driver and counts one more failure
    ensures Judge(s.driver.Some?, t) == Failed && r.next.Running? ==>
      && r.next.state == State(None, s.retryCount + 1, r.next.state.launched)
      && r.effects != [] && r.effects[|r.effects| - 1] == Slept(RetryDelayMs)
    ensures Judge(s.driver.Some?, t) == Failed && s.driver.Some? ==> QuitAttempted(s.driver.value.id) in r.effects
    // a session is built only when there is no driver, and a live driver is only ever dropped, never replaced
    ensures s.driver.Some? ==> forall e <- r.effects :: !e.Launched?
    ensures s.driver.Some? && r.next.Running? && r.next.state.driver.Some? ==> r.next.state.driver == s.driver
    ensures s.driver.None? ==> (r.effects != [] && r.effects[0] == Launched(s.launched) <==> t.setup.SetupDone? || t.setup.stage.AfterBuild())
  {
    if s.driver.Some? then Check(s, t.poll, [])
    else
      var built := State(Some(Session(s.launched)), s.retryCount, s.launched + 1);
      match t.setup
      case SetupFailed(stage) =>
        if stage.AfterBuild() then Recover(built, [Launched(s.launched)]) else Recover(s, [])
      case SetupDone(_) => Check(built, t.poll, [Launched(s.launched)])
  }

  /** A run over several iterations: where it ended, what it did, and the verdict of each iteration it went through. */
  datatype Trace = Trace(next: Phase, effects: seq<Effect>, verdicts: seq<Verdict>)

  /** The loop fed with `ts`, one tick per iteration, until it exits or the ticks run out. */
  function Run(p: Phase, ts: seq<Tick>): (r: Trace)
    // after `process.exit` nothing more happens: no launch, no sleep
    ensures p.Exited? ==> r.next == p && r.effects == [] && r.verdicts == []
    ensures |r.verdicts| <= |ts|
    // a run still going consumed every tick and sits below the ceiling
    ensures p.Running? && r.next.Running? ==> |r.verdicts| == |ts|
    ensures p.Running? && |ts| > 0 && r.next.Running? ==> r.next.state.retryCount < MaxRetries
    // a run that exits does so with code 1, right after a failed iteration
    ensures p.Running? && r.next.Exited? ==> r.next.code == 1 && r.verdicts != [] && r.verdicts[|r.verdicts| - 1] == Failed
    decreases |ts|
  {
    if |ts| == 0 || p.Exited? then Trace(p, [], [])
    else
      var u := Step(p.state, ts[0]);
      var rest := Run(u.next, ts[1..]);
      Trace(rest.next, u.effects + rest.effects, [Judge(p.state.driver.Some?, ts[0])] + rest.verdicts)
  }

  /** One more iteration appended to a run, unless the run has already exited. */
  function Extend(r: Trace, t: Tick): (x: Trace)
    ensures r.next.Exited? ==> x == r
    ensures r.next.Running? ==> |x.verdicts| == |r.verdicts| + 1 && |r.effects| <= |x.effects| && x.effects[..|r.effects|] == r.effects
  {
    if r.next.Exited? then r
    else
      var u := Step(r.next.state, t);
      Trace(u.next, r.effects + u.effects, r.verdicts + [Judge(r.next.state.driver.Some?, t)])
  }

  /** A run that takes a first iteration is that iteration followed by the run from where it led. */
  lemma RunCons(p: Phase, ts: seq<Tick>)
    requires p.Running? && |ts| > 0
    ensures var u := Step(p.state, ts[0]);
      var rest := Run(u.next, ts[1..]);
      Run(p, ts) == Trace(rest.next, u.effects + rest.effects, [Judge(p.state.driver.Some?, ts[0])] + rest.verdicts)
  {
  }

  /** Appending effects and a verdict commutes with putting effects and a verdict in front. */
  lemma AppendAssoc(es: seq<Effect>, v: Verdict, mid: seq<Effect>, vs: seq<Verdict>, ws: seq<Effect>, w: Verdict)
    ensures es + (mid + ws) == (es + mid) + ws
    ensures [v] + (vs + [w]) == ([v] + vs) + [w]
  {
  }

  /** Extending a run commutes with putting an iteration in front of it. */
  lemma ExtendCons(es: seq<Effect>, v: Verdict, rest: Trace, t: Tick)
    ensures var r := Extend(rest, t);
      Extend(Trace(rest.next, es + rest.effects, [v] + rest.verdicts), t) == Trace(r.next, es + r.effects, [v] + r.verdicts)
  {
    if rest.next.Running? {
      var w := Step(rest.next.state, t);
      AppendAssoc(es, v, rest.effects, rest.verdicts, w.effects, Judge(rest.next.state.driver.Some?, t));
    }
  }

  /** Running over one more tick is `Extend`ing the run over the ticks before it. */
  lemma {:induction false} RunSnoc(p: Phase, ts: seq<Tick>, t: Tick)
    ensures Run(p, ts + [t]) == Extend(Run(p, ts), t)
    decreases |ts|
  {
    if p.Running? && |ts| == 0 {
      assert ts + [t] == [t];
    } else if p.Running? {
      var u := Step(p.state, ts[0]);
      assert (ts + [t])[0] == ts[0];
      assert (ts + [t])[1..] == ts[1..] + [t];
      RunCons(p, ts);
      RunCons(p, ts + [t]);
      RunSnoc(u.next, ts[1..], t);
      ExtendCons(u.effects, Judge(p.state.driver.Some?, ts[0]), Run(u.next, ts[1..]), t);
    }
  }

  /** The number of `Failed` verdicts at the end of `vs`, after its last `Passed` one. */
  function TrailingFailures(vs: seq<Verdict>): (n: nat)
    ensures n <= |vs|
    ensures forall i :: |vs| - n <= i < |vs| ==> vs[i] == Failed
    ensures n < |vs| ==> vs[|vs| - n - 1] == Passed
    decreases |vs|
  {
    if |vs| == 0 || vs[|vs| - 1] == Passed then 0
    else
      var front := vs[..|vs| - 1];
      var n := TrailingFailures(front);
      assert forall i | |vs| - 1 - n <= i < |vs| :: vs[i] == Failed by {
        forall i | |vs| - 1 - n <= i < |vs|
          ensures vs[i] == Failed
        {
          if i < |vs| - 1 {
            assert front[i] == vs[i];
          }
        }
      }
      1 + n
  }

  /**
   From the start of the loop, `retryCount` is always the number of consecutive
   failed iterations since the last healthy one; the run exits exactly when that
   number first reaches `MaxRetries`, and never before.
   */
  lemma {:induction false} RetryCountIsStreak(ts: seq<Tick>)
    ensures var r := Run(Initial, ts);
      && (r.next.Running? ==> r.next.state.retryCount == TrailingFailures(r.verdicts))
      && (r.next.Exited? ==> TrailingFailures(r.verdicts) == MaxRetries)
      && forall k :: 0 <= k < |r.verdicts| ==> TrailingFailures(r.verdicts[..k]) < MaxRetries
    decreases |ts|
  {
    if |ts| > 0 {
      var front, t := ts[..|ts| - 1], ts[|ts| - 1];
      assert ts == front + [t];
      RetryCountIsStreak(front);
      RunSnoc(Initial, front, t);
      var r := Run(Initial, front);
      if r.next.Running? {
        var v := Judge(r.next.state.driver.Some?, t);
        var vs := r.verdicts + [v];
        assert vs[..|vs| - 1] == r.verdicts;
        forall k | 0 <= k < |vs|
          ensures TrailingFailures(vs[..k]) < MaxRetries
        {
          if k < |r.verdicts| {
            assert vs[..k] == r.verdicts[..k];
          }
        }
      }
    }
  }

  /** The tick's status read fails on its own, whatever happened before it. */
  predicate PollFaults(t: Tick)
  {
    t.poll.PollFailed? || Status.Classify(t.poll.text) == Status.Disconnected
  }

  /**
   From any running state, as many faulty polls in a row as are left below the
   ceiling end the process with exit code 1, after going through every one of them.
   */
  lemma {:induction false} ConsecutiveFaultsExit(s: State, ts: seq<Tick>)
    requires s.retryCount < MaxRetries
    requires |ts| == MaxRetries - s.retryCount
    requires forall i :: 0 <= i < |ts| ==> PollFaults(ts[i])
    ensures Run(Running(s), ts).next == Exited(1)
    ensures |Run(Running(s), ts).verdicts| == |ts|
    decreases |ts|
  {
    assert PollFaults(ts[0]);
    assert Judge(s.driver.Some?, ts[0]) == Failed;
    var u := Step(s, ts[0]);
    if s.retryCount + 1 < MaxRetries {
      forall i | 0 <= i < |ts[1..]|
        ensures PollFaults(ts[1..][i])
      {
        assert ts[1..][i] == ts[i + 1];
      }
      ConsecutiveFaultsExit(u.next.state, ts[1..]);
    }
  }

  /** How a single effect changes the set of sessions built and not yet told to quit. */
  function Track(open: set<nat>, e: Effect): (o: set<nat>)
  {
    match e
    case Launched(id) => open + {id}
    case QuitAttempted(id) => open - {id}
    case Slept(_) => open
  }

  /**
   The sessions outstanding after `es`, starting from `open`: built and not yet
   told to quit. A `quit` attempt counts whether or not it threw.
   */
  function Replay(open: set<nat>, es: seq<Effect>): (o: set<nat>)
    decreases |es|
  {
    if |es| == 0 then open else Replay(Track(open, es[0]), es[1..])
  }

  /** Every launch in `es` happens while no earlier session is outstanding. */
  predicate LaunchesWhenIdle(open: set<nat>, es: seq<Effect>)
    decreases |es|
  {
    |es| == 0 || ((es[0].Launched? ==> open == {}) && LaunchesWhenIdle(Track(open, es[0]), es[1..]))
  }

  /** The session the state holds, as a set. */
  function Held(p: Phase): (h: set<nat>)
    ensures |h| <= 1
  {
    if p.Running? && p.state.driver.Some? then {p.state.driver.value.id} else {}
  }

  lemma {:induction false} ReplayAppend(open: set<nat>, a: seq<Effect>, b: seq<Effect>)
    ensures Replay(open, a + b) == Replay(Replay(open, a), b)
    ensures LaunchesWhenIdle(open, a + b) <==> LaunchesWhenIdle(open, a) && LaunchesWhenIdle(Replay(open, a), b)
    decreases |a|
  {
    if |a| == 0 {
      assert a + b == b;
    } else {
      assert (a + b)[0] == a[0];
      assert (a + b)[1..] == a[1..] + b;
      ReplayAppend(Track(open, a[0]), a[1..], b);
    }
  }

  /** Replaying a non-empty list is replaying its first effect, then the rest. */
  lemma ReplayCons(open: set<nat>, e: Effect, rest: seq<Effect>)
    ensures Replay(open, [e] + rest) == Replay(Track(open, e), rest)
    ensures LaunchesWhenIdle(open, [e] + rest) <==> (e.Launched? ==> open == {}) && LaunchesWhenIdle(Track(open, e), rest)
  {
    assert ([e] + rest)[0] == e;
    assert ([e] + rest)[1..] == rest;
  }

  /** A list without launches launches only when idle, trivially. */
  lemma {:induction false} NoLaunchesWhenIdle(open: set<nat>, es: seq<Effect>)
    requires forall e <- es :: !e.Launched?
    ensures LaunchesWhenIdle(open, es)
    decreases |es|
  {
    if |es| > 0 {
      assert es[0] in es;
      assert forall e <- es[1..] :: e in es;
      NoLaunchesWhenIdle(Track(open, es[0]), es[1..]);
    }
  }

  /** An iteration that builds nothing: the held session is polled, or building failed before `driver` was set. */
  lemma StepAccountsWithoutLaunch(s: State, t: Tick)
    requires s.driver.Some? || (t.setup.SetupFailed? && !t.setup.stage.AfterBuild())
    ensures var u := Step(s, t);
      Replay(Held(Running(s)), u.effects) == Held(u.next) && LaunchesWhenIdle(Held(Running(s)), u.effects)
  {
    var u := Step(s, t);
    if s.driver.Some? {
      assert u == Check(s, t.poll, []);
    } else {
      assert u == Recover(s, []);
    }
    assert u.effects[0..] == u.effects;
    NoLaunchesWhenIdle(Held(Running(s)), u.effects);
  }

  /** An iteration that builds a session: that session is either still held or already told to quit. */
  lemma StepAccountsWithLaunch(s: State, t: Tick)
    requires s.driver.None? && (t.setup.SetupDone? || t.setup.stage.AfterBuild())
    ensures var u := Step(s, t);
      Replay(Held(Running(s)), u.effects) == Held(u.next) && LaunchesWhenIdle(Held(Running(s)), u.effects)
  {
    var u := Step(s, t);
    var n := s.launched;
    var built := State(Some(Session(n)), s.retryCount, n + 1);
    if t.setup.SetupDone? {
      assert u == Check(built, t.poll, [Launched(n)]);
    } else {
      assert u == Recover(built, [Launched(n)]);
    }
    assert Held(Running(built)) == {n};
    AccountAfterLaunch(n, u.effects, Held(u.next));
  }

  /** A launch from idle followed by effects that launch nothing and leave `after` outstanding. */
  lemma AccountAfterLaunch(n: nat, es: seq<Effect>, after: set<nat>)
    requires |es| >= 1 && es[..1] == [Launched(n)]
    requires forall e <- es[1..] :: !e.Launched?
    requires Replay({n}, es[1..]) == after
    ensures Replay({}, es) == after && LaunchesWhenIdle({}, es)
  {
    assert es[0] == es[..1][0] == Launched(n);
    assert es == [Launched(n)] + es[1..];
    assert Track({}, Launched(n)) == {n};
    ReplayCons({}, Launched(n), es[1..]);
    NoLaunchesWhenIdle({n}, es[1..]);
  }

  /** One iteration keeps the outstanding sessions equal to the one the driver holds. */
  lemma StepAccounts(s: State, t: Tick)
    ensures var u := Step(s, t);
      Replay(Held(Running(s)), u.effects) == Held(u.next) && LaunchesWhenIdle(Held(Running(s)), u.effects)
  {
    if s.driver.Some? || (t.setup.SetupFailed? && !t.setup.stage.AfterBuild()) {
      StepAccountsWithoutLaunch(s, t);
    } else {
      StepAccountsWithLaunch(s, t);
    }
  }

  /**
   Over any run from the start, every session built is told to quit before the
   next one is built and before the process exits; the only session not yet told
   to quit is the one the driver still holds.
   */
  lemma {:induction false} SessionsAccounted(ts: seq<Tick>)
    ensures var r := Run(Initial, ts);
      Replay({}, r.effects) == Held(r.next) && LaunchesWhenIdle({}, r.effects)
    decreases |ts|
  {
    if |ts| > 0 {
      var front, t := ts[..|ts| - 1], ts[|ts| - 1];
      assert ts == front + [t];
      SessionsAccounted(front);
      RunSnoc(Initial, front, t);
      var r := Run(Initial, front);
      if r.next.Running? {
        var u := Step(r.next.state, t);
        StepAccounts(r.next.state, t);
        ReplayAppend({}, r.effects, u.effects);
      }
    }
  }

  /**
   The swallowed errors change nothing: a failed "I got it" click
   (app.js:156-158) and a `quit` that throws inside `cleanup` (app.js:114-116)
   lead to the same iteration as their successful counterparts.
   */
  lemma SwallowedErrorsAreInert(s: State, t: Tick, dismissed: bool, quitOk: bool)
    ensures Step(s, t.(quitSucceeds := quitOk)) == Step(s, t)
    ensures t.setup.SetupDone? ==> Step(s, t.(setup := SetupDone(dismissed))) == Step(s, t)
  {
  }

  /**
   A held session whose status keeps reading healthy is polled once per check
   interval, for as many iterations as there are, with nothing built or quit.
   */
  lemma {:induction false} HealthyKeepsPolling(s: State, t: Tick, n: nat)
    requires s.driver.Some? && s.retryCount == 0
    requires t.poll.StatusRead? && Status.Classify(t.poll.text) == Status.Healthy
    ensures Run(Running(s), seq(n, _ => t)) ==
      Trace(Running(s), seq(n, _ => Slept(CheckIntervalMs)), seq(n, _ => Passed))
    decreases n
  {
    if n > 0 {
      ConstantCons(t, n - 1);
      ConstantCons(Slept(CheckIntervalMs), n - 1);
      ConstantCons(Passed, n - 1);
      assert Judge(true, t) == Passed;
      assert Step(s, t) == Transition(Running(s), [Slept(CheckIntervalMs)]);
      RunCons(Running(s), seq(n, _ => t));
      HealthyKeepsPolling(s, t, n - 1);
    }
  }

  /**
   From the start, with a login that succeeds and a status that reads healthy
   every time: session 0 is built once, then polled every check interval with
   the count at 0, for any number of iterations.
   */
  lemma ConnectedScenario(text: string, n: nat)
    requires Status.Classify(text) == Status.Healthy
    ensures var t := Tick(SetupDone(true), StatusRead(text), true);
      Run(Initial, seq(n + 1, _ => t)) ==
        Trace(Running(State(Some(Session(0)), 0, 1)),
              [Launched(0)] + seq(n + 1, _ => Slept(CheckIntervalMs)),
              seq(n + 1, _ => Passed))
  {
    var t := Tick(SetupDone(true), StatusRead(text), true);
    var s1 := State(Some(Session(0)), 0, 1);
    var ts := seq(n + 1, _ => t);
    ConstantCons(t, n);
    ConstantCons(Slept(CheckIntervalMs), n);
    ConstantCons(Passed, n);
    ConnectedFirstStep(t);
    RunCons(Initial, ts);
    HealthyKeepsPolling(s1, t, n);
  }

  /** The first iteration of `ConnectedScenario`: session 0 is built and passes its first poll. */
  lemma ConnectedFirstStep(t: Tick)
    requires t.setup == SetupDone(true) && t.poll.StatusRead? && Status.Classify(t.poll.text) == Status.Healthy
    ensures Step(State(None, 0, 0), t) == Transition(Running(State(Some(Session(0)), 0, 1)), [Launched(0), Slept(CheckIntervalMs)])
  {
  }

  /** A constant sequence one longer is its element followed by the shorter one. */
  lemma ConstantCons<T>(x: T, n: nat)
    ensures seq(n + 1, _ => x) == [x] + seq(n, _ => x)
    ensures seq(n + 1, _ => x)[1..] == seq(n, _ => x)
  {
  }

  /** With no driver and a status read that throws, a session is built, quit, and counted as a failure. */
  lemma PollErrorStep(k: nat, n: nat, t: Tick)
    requires t.setup.SetupDone? && t.poll.PollFailed?
    ensures Step(State(None, k, n), t) ==
      if k + 1 >= MaxRetries then Transition(Exited(1), [Launched(n), QuitAttempted(n)])
      else Transition(Running(State(None, k + 1, n + 1)), [Launched(n), QuitAttempted(n), Slept(RetryDelayMs)])
  {
    var built := State(Some(Session(n)), k, n + 1);
    assert Step(State(None, k, n), t) == Recover(built, [Launched(n)]);
    assert Cleanup(built.driver) == [QuitAttempted(n)];
    assert [Launched(n)] + [QuitAttempted(n)] == [Launched(n), QuitAttempted(n)];
  }

  /**
   The effects of `c` failing iterations that each build a session, numbered
   from `n`: every session is told to quit, with a retry delay between one
   cycle and the next and none after the last.
   */
  function RetryCycles(n: nat, c: nat): (es: seq<Effect>)
    requires c >= 1
    ensures |es| == 3 * c - 1
    decreases c
  {
    if c == 1 then [Launched(n), QuitAttempted(n)]
    else [Launched(n), QuitAttempted(n), Slept(RetryDelayMs)] + RetryCycles(n + 1, c - 1)
  }

  /**
   From no driver and a count of `k`, a status read that keeps throwing exits
   after exactly the failures left below the ceiling, however many more ticks
   there are.
   */
  lemma {:induction false} PollErrorsFrom(k: nat, n: nat, t: Tick, m: nat)
    requires k < MaxRetries && t.setup.SetupDone? && t.poll.PollFailed?
    ensures Run(Running(State(None, k, n)), seq(MaxRetries - k + m, _ => t)) ==
      Trace(Exited(1), RetryCycles(n, MaxRetries - k), seq(MaxRetries - k, _ => Failed))
    decreases MaxRetries - k
  {
    var c := MaxRetries - k;
    var ts := seq(c + m, _ => t);
    ConstantCons(t, c - 1 + m);
    ConstantCons(Failed, c - 1);
    assert ts[0] == t && ts[1..] == seq(c - 1 + m, _ => t);
    PollErrorStep(k, n, t);
    var u := Step(State(None, k, n), t);
    RunCons(Running(State(None, k, n)), ts);
    assert Judge(false, t) == Failed;
    if k + 1 >= MaxRetries {
      assert u == Transition(Exited(1), RetryCycles(n, 1));
    } else {
      PollErrorsFrom(k + 1, n + 1, t, m);
      assert RetryCycles(n, c) == u.effects + RetryCycles(n + 1, c - 1);
    }
  }

  /**
   A status read that keeps throwing: three sessions are built and each is told
   to quit, with one retry delay between them; the third failure exits with
   code 1 and none of the further ticks is consumed.
   */
  lemma PollErrorScenario(t: Tick, m: nat)
    requires t.setup.SetupDone? && t.poll.PollFailed?
    ensures Run(Initial, seq(3 + m, _ => t)) ==
        Trace(Exited(1),
              [Launched(0), QuitAttempted(0), Slept(RetryDelayMs),
               Launched(1), QuitAttempted(1), Slept(RetryDelayMs),
               Launched(2), QuitAttempted(2)],
              [Failed, Failed, Failed])
  {
    PollErrorsFrom(0, 0, t, m);
    assert RetryCycles(0, 3) == [Launched(0), QuitAttempted(0), Slept(RetryDelayMs),
                                 Launched(1), QuitAttempted(1), Slept(RetryDelayMs),
                                 Launched(2), QuitAttempted(2)];
    assert seq(3, _ => Failed) == [Failed, Failed, Failed];
  }


}

=== FILE: text.dfy ===
/**
 Substring search on strings, as `String.prototype.includes` decides it.
 The recursive `Contains` is the executable definition; `OccursAt` is the
 positional reference definition it is proved equivalent to.
 */
module Text {

  /** `t` sits in `s` starting at index `i`. */
  predicate OccursAt(s: string, t: string, i: nat)
  {
    i + |t| <= |s| && s[i..i + |t|] == t
  }

  /** `s.includes(t)`: `t` is a prefix of `s` or of some suffix of `s`. */
  predicate Contains(s: string, t: string)
    decreases |s|
  {
    t <= s || (|s| > 0 && Contains(s[1..], t))
  }

  /** A slice of the tail of `s` is the slice of `s` one position further on. */
  lemma TailSlice(s: string, i: nat, j: nat)
    requires i <= j < |s|
    ensures s[1..][i..j] == s[i + 1..j + 1]
  {
    assert |s[1..][i..j]| == |s[i + 1..j + 1]|;
    forall k | 0 <= k < j - i
      ensures s[1..][i..j][k] == s[i + 1..j + 1][k]
    {
    }
  }

  /** `Contains` holds exactly when `t` occurs at some position of `s`. */
  lemma {:induction false} ContainsIffOccurs(s: string, t: string)
    ensures Contains(s, t) <==> exists i: nat :: OccursAt(s, t, i)
    decreases |s|
  {
    if Contains(s, t) {
      if t <= s {
        assert OccursAt(s, t, 0);
      } else {
        ContainsIffOccurs(s[1..], t);
        var i: nat :| OccursAt(s[1..], t, i);
        TailSlice(s, i, i + |t|);
        assert OccursAt(s, t, i + 1);
      }
    }
    if exists i: nat :: OccursAt(s, t, i) {
      var i: nat :| OccursAt(s, t, i);
      if i == 0 {
        assert t <= s;
      } else {
        TailSlice(s, i - 1, i - 1 + |t|);
        assert OccursAt(s[1..], t, i - 1);
        ContainsIffOccurs(s[1..], t);
      }
    }
  }

  /** An occurrence at a known position is enough for `Contains`. */
  lemma OccursImpliesContains(s: string, t: string, i: nat)
    requires OccursAt(s, t, i)
    ensures Contains(s, t)
  {
    ContainsIffOccurs(s, t);
  }

  /** A string shorter than `t` cannot contain it. */
  lemma ShorterNeverContains(s: string, t: string)
    requires |s| < |t|
    ensures !Contains(s, t)
  {
    ContainsIffOccurs(s, t);
  }

  /** A string lacking some character of `t` cannot contain `t`. */
  lemma MissingCharNeverContains(s: string, t: string, k: nat)
    requires k < |t| && t[k] !in s
    ensures !Contains(s, t)
  {
    forall i: nat
      ensures !OccursAt(s, t, i)
    {
      if i + |t| <= |s| {
        assert s[i..i + |t|][k] == s[i + k];
      }
    }
    ContainsIffOccurs(s, t);
  }
}

=== FILE: wrappers.dfy ===
/** The optional value used for JavaScript's `undefined`/`null`. */
module Wrappers {

  datatype Option<+T> = None | Some(value: T)
}
